=== FILE: README.md ===
# Task manager: a Dafny model of its validation, store and client list

This project models the logic of a small task tracker. The tracker has an Express and Mongoose
back end and a React front end. A task has an id, a title, a description, a status (`pending` or
`completed`) and creation and update timestamps. The model covers three pieces.

- **The task record and its three validators.**
  - The Mongoose schema: trimming, length limits, defaults, and the first failing validator per path.
  - The express-validator chains of the routes. They have no bail, so every failing check reports
    and `validate` joins all the messages with `", "`.
  - The form's own check on the client: at most one title message, and the description measured
    before trimming.
- **The service over an owned store.** `TaskService.TaskStore` holds a map from id to task.
  - Its methods are list (newest first), get, create, update, toggle and delete.
  - A fresh id and the clock reading are passed in.
  - A missing task is an `Err(NotFound)` value rather than a thrown error.
  - The controller and error handler are pure functions from a service outcome to a response.
  - `TaskApi.Dispatch` runs one request through the pipeline: chains, then handler, then error handler.
- **The client.**
  - `UseTasks.TaskList` holds the hook's `tasks`, `loading` and `error` cells. Each API outcome
    reconciles the list: prepend, replace by id, remove by id, or leave it unchanged on failure.
  - The `stats` derivation.
  - The `visibleTasks` view: status tab, then a case-insensitive search.
  - `TaskForm.TaskFormState` holds the form and its error messages.

Modules follow the source files.

| file | module | source |
|---|---|---|
| common.dfy | `Common` | Option, Result, `filter`, sub-lists |
| text.dfy | `Text` | JavaScript `trim`, ASCII `toLowerCase`, `includes`, `join` |
| messages.dfy | `Messages` | the validation messages |
| task_model.dfy | `TaskModel` | the schema |
| errors.dfy | `Errors` | the service's errors |
| http.dfy | `Http` | request and response shapes |
| error_handler.dfy | `ErrorHandler` | the error handler |
| task_routes.dfy | `TaskRoutes` | the routes |
| task_service.dfy | `TaskService` | the service |
| task_controller.dfy | `TaskController` | the controller |
| task_api.dfy | `TaskApi` | the route pipeline |
| use_tasks.dfy | `UseTasks` | the hook |
| visible_tasks.dfy | `VisibleTasks` | the App view |
| task_form.dfy | `TaskForm` | the form |

A request whose `:id` is not a well-formed ObjectId is answered 400 "Invalid task ID" by the
route's `isMongoId` check (backend/routes/tasks.js:21, 65-79), so in the model the service never
sees it. The service's own cast failure, answered 400 "Invalid task ID format", is modelled but in
the model is reached only by a caller that skips the route; the `TaskRoutes.IdErrors` line under
"## Left out" names the ids for which the source differs.

## Model

| member | source | states |
|---|---|---|
| TaskModel.ParseStatus | backend/models/Task.js:18-22 | only the texts "pending" and "completed" are statuses, and each reads back as the status whose name it is |
| TaskModel.TitleError | backend/models/Task.js:5-11 | the first failing title validator after trimming: "Title is required" exactly when the title is absent or blank, "Title cannot exceed 100 characters" exactly when the trimmed title is over 100, "Title must be at least 3 characters" exactly when the trimmed title is non-empty and under 3, none exactly when the trimmed length is in 3..100 |
| TaskModel.DescriptionError | backend/models/Task.js:12-17 | a description fails exactly when it is present and over 500 characters once trimmed, and then with the maxlength message |
| TaskModel.StatusError | backend/models/Task.js:18-22 | a status fails exactly when it is present and not one of the two enum values, and then with Mongoose's enum message for that value |
| TaskModel.SchemaErrors | backend/models/Task.js:3-27 | the title's message, then the description's, then the status's, each present only when that path fails; so at most one message per path; none exactly when the title is present and in range, the description absent or in range, and the status absent or valid; an absent title's first message is "Title is required" |
| TaskModel.NewTask | backend/models/Task.js:3-27 | a record is built exactly when the schema accepts the fields, otherwise the schema's messages come back; a built record is valid, has the given id, both timestamps at `now`, the trimmed title and description (default ""), and the given status (default "pending") |
| TaskModel.UpdateErrors | backend/services/taskService.js:21-26 | with validators on for the update, only supplied paths are checked, each with its schema rules: the messages are the schema's, in schema order, without the title's when no title is supplied; none exactly when every supplied path is in range |
| TaskModel.ApplyUpdate | backend/services/taskService.js:21-33 | the id and `createdAt` never change and `updatedAt` becomes `now`; absent fields keep their stored values; a supplied title or description is stored trimmed; a supplied status is stored as given; an accepted update keeps a valid record valid |
| TaskModel.Toggled | backend/services/taskService.js:42-43 | the status always changes; title, description, id and `createdAt` are kept and `updatedAt` becomes `now`; validity is kept |
| TaskModel.CastId | backend/services/taskService.js:8 | a well-formed id casts to an ObjectId in printed form (24 lower-case hex digits), digit by digit lowered; an id already in printed form casts to itself |
| TaskModel.CastIgnoresCase | backend/services/taskService.js:8 | two spellings cast to the same ObjectId exactly when they agree once lowered, so any spelling of a stored id finds it |
| TaskModel.ToggleTwice | backend/services/taskService.js:42 | toggling twice gives back the original task, apart from `updatedAt` |
| Text.Trim | backend/models/Task.js:8 | trimming never lengthens a value |
| Text.TrimSlice | backend/routes/tasks.js:25 | the trimmed value is a contiguous slice of the input with only white space cut on either side, and it neither starts nor ends with white space |
| Text.TrimIdempotent | backend/models/Task.js:8 | trimming an already trimmed value changes nothing, so the route's `trim()` and the schema's `trim` compose to one trim |
| Text.TrimBlank | backend/routes/tasks.js:25-27 | a value trims to "" exactly when it is all white space |
| Messages.Render | backend/models/Task.js:7-15 | every validation message has a non-empty text |
| Messages.Joined | backend/routes/tasks.js:11-15 | a non-empty list of messages gives a non-empty text that starts with the first message; no messages give "" |
| ErrorHandler.HandleError | backend/middleware/errorHandler.js:1-23 | every error answer has `success: false`; a validation error is 400 with the messages joined; a cast error is 400 "Invalid task ID format"; any other error takes its own status code unless missing or 0 (then 500) and its own message unless empty (then "Internal Server Error") |
| ErrorHandler.NotFoundResponse | backend/middleware/errorHandler.js:19-22 | the service's not-found error becomes 404 "Task not found" |
| TaskRoutes.IdErrors | backend/routes/tasks.js:21 | the `:id` parameter passes exactly when it is 24 hexadecimal characters, otherwise "Invalid task ID" |
| TaskRoutes.CreateTitleErrors | backend/routes/tasks.js:24-31 | no messages exactly when the title is present and its trimmed length is in 3..100; a missing or blank title gives both "Title is required" and "Title must be at least 3 characters"; a non-blank title shorter than 3 gives only "Title must be at least 3 characters" and one over 100 only "Title cannot exceed 100 characters"; the first message is always the schema's message for the same title |
| TaskRoutes.UpdateTitleErrors | backend/routes/tasks.js:44-52 | an absent title passes; a blank one gives "Title cannot be empty" and "Title must be at least 3 characters"; a non-blank one gets the same messages as on create |
| TaskRoutes.DescriptionErrors | backend/routes/tasks.js:32-36 | a description fails exactly when present and over 500 characters once trimmed, with that one message |
| TaskRoutes.StatusErrors | backend/routes/tasks.js:37-40 | a status fails exactly when present and neither "pending" nor "completed", with "Status must be pending or completed" |
| TaskRoutes.CreateBodyErrors | backend/routes/tasks.js:23-41 | every chain runs: the messages are the title chain's, then the description chain's, then the status chain's; the create chains pass exactly the bodies the schema accepts |
| TaskRoutes.UpdateBodyErrors | backend/routes/tasks.js:43-62 | every chain runs: the messages are the title chain's, then the description chain's, then the status chain's; the update chains pass exactly the updates the schema's update validators accept |
| TaskRoutes.ExtraKeysIgnored | backend/controller/taskController.js:40-41 | keys other than title, description and status never reach the service |
| TaskRoutes.Sanitized | backend/routes/tasks.js:25-34 | the sanitizers write back the trimmed title and description, keep which of them are present, and change nothing else |
| TaskRoutes.SanitizedCreate | backend/routes/tasks.js:23-41 | creating from the sanitized body builds the same record as from the raw body |
| TaskRoutes.SanitizedUpdateErrors | backend/routes/tasks.js:43-62 | the sanitized update body passes exactly the checks the raw body passes |
| TaskRoutes.SanitizedUpdate | backend/routes/tasks.js:43-62 | updating from the sanitized body gives the same record as from the raw body |
| TaskRoutes.RouteErrors | backend/routes/tasks.js:64-79 | listing checks nothing; create checks only the body; get, toggle and delete check only the id; update gives the id chain's messages followed by the update body chains'; every route with `:id` reports "Invalid task ID" first for a malformed id; update passes exactly when the id and the update fields pass |
| TaskRoutes.Validate | backend/routes/tasks.js:7-19 | control passes on exactly when there are no errors; otherwise 400 with `success: false` and every message joined in order, never empty |
| TaskService.InsertNewestFirst | backend/services/taskService.js:3-5 | inserting adds exactly the one task: the list grows by one and its multiset gains only that task |
| TaskService.InsertKeepsNewestFirst | backend/services/taskService.js:3-5 | inserting into a newest-first list keeps it newest first |
| TaskService.TaskStore.GetAllTasks | backend/services/taskService.js:3-5 | the list is ordered by `createdAt` descending, has one entry per stored task, and holds exactly the stored tasks |
| TaskService.TaskStore.GetTaskById | backend/services/taskService.js:7-15 | succeeds exactly for a well-formed id whose cast ObjectId is stored, in any case of its hex digits, with that task; a malformed id fails the cast; an absent one fails with not-found |
| TaskService.TaskStore.CreateTask | backend/services/taskService.js:17-19 | succeeds exactly when the schema accepts the fields; then the new record is stored under the fresh id (an ObjectId in printed form), otherwise the schema's messages come back and nothing is stored |
| TaskService.TaskStore.UpdateTask | backend/services/taskService.js:21-33 | cast failure, then validation failure, then not-found, in that order; the task is found under the ObjectId the id casts to; on success the stored record becomes the updated one and is returned; every other task is untouched and a failure changes nothing |
| TaskService.TaskStore.ToggleTaskStatus | backend/services/taskService.js:35-45 | cast failure or not-found; otherwise the task stored under the cast ObjectId has its status flipped, nothing else changes and it is returned; other tasks are untouched |
| TaskService.TaskStore.DeleteTask | backend/services/taskService.js:47-55 | cast failure or not-found; otherwise the task stored under the cast ObjectId is returned and removed, so a later lookup in any spelling is not found; other tasks are untouched |
| TaskController.GetAllTasks | backend/controller/taskController.js:14-25 | 200 with `success: true` and `count` equal to the number of tasks sent; a failure is forwarded unchanged |
| TaskController.GetTaskById | backend/controller/taskController.js:28-35 | 200 with the service's task; a failure is forwarded unchanged |
| TaskController.CreateTask | backend/controller/taskController.js:38-46 | 201 with the created task; a failure is forwarded unchanged |
| TaskController.UpdateTask | backend/controller/taskController.js:49-61 | 200 with the updated task; a failure is forwarded unchanged |
| TaskController.ToggleTaskStatus | backend/controller/taskController.js:64-71 | 200 with the toggled task; a failure is forwarded unchanged |
| TaskController.DeleteTask | backend/controller/taskController.js:74-81 | 200 with empty `data`; a failure is forwarded unchanged |
| TaskApi.Finish | backend/controller/taskController.js:22-24 | a forwarded error is answered by the error handler, with `success: false` |
| TaskApi.ServeList | backend/routes/tasks.js:64 | 200 with every stored task, newest first, and the count |
| TaskApi.ServeCreate | backend/routes/tasks.js:66 | a body that passed the chains is always created: 201 with the schema's record, stored under the fresh id |
| TaskApi.ServeGet | backend/routes/tasks.js:65 | 200 with the task stored under the ObjectId the id casts to exactly when there is one, otherwise 404 "Task not found" |
| TaskApi.ServeUpdate | backend/routes/tasks.js:67-72 | after the chains passed, 200 with the updated record exactly when a task is stored under the ObjectId the id casts to, which then becomes that record; otherwise 404 with the store unchanged |
| TaskApi.ServeToggle | backend/routes/tasks.js:73-78 | 200 with the toggled task exactly when a task is stored under the ObjectId the id casts to, which then becomes the toggled one; otherwise 404 with the store unchanged |
| TaskApi.ServeDelete | backend/routes/tasks.js:79 | 200 with empty `data` and the task removed exactly when a task is stored under the ObjectId the id casts to, otherwise 404 with the store unchanged |
| TaskApi.Dispatch | backend/routes/tasks.js:64-79 | a request the chains reject is 400 with their messages and the store untouched; the status is 400 exactly then; any failed request leaves the store as it was; every answer is 200, 201, 400 or 404; 201 exactly for an accepted create; a 404 is always "Task not found"; a request that passed reaches its own route's handler: list and get leave the store unchanged, list answers 200 with the task list, create stores the schema's record under the fresh id, get answers the stored task, update and toggle replace only the task the id names with `ApplyUpdate` or `Toggled` of it, delete removes only that task, and an id route succeeds exactly when its task is stored |
| UseTasks.ReplaceById | frontend/src/hooks/useTasks.js:44 | the length is kept, every entry with the id becomes the server's record, and every other entry stays where it was |
| UseTasks.RemoveById | frontend/src/hooks/useTasks.js:70 | the result keeps the rest in order and holds exactly the entries without the id, each as many times as in the list |
| UseTasks.ReplaceThenRemove | frontend/src/hooks/useTasks.js:44-70 | an update followed by a delete of the same id leaves the same list as the delete alone |
| UseTasks.ReplaceIdempotent | frontend/src/hooks/useTasks.js:44 | applying the same server record twice is applying it once |
| UseTasks.CountStatus | frontend/src/hooks/useTasks.js:80-81 | a count never exceeds the list's length |
| UseTasks.StatsOf | frontend/src/hooks/useTasks.js:78-82 | `total` is the length, and `completed` and `pending` are the status counts, adding up to `total` |
| UseTasks.StatsPartition | frontend/src/hooks/useTasks.js:78-82 | every entry is counted exactly once, as completed or as pending |
| UseTasks.ReplaceAtMovesCount | frontend/src/hooks/useTasks.js:56 | replacing one entry with a record of the other status moves one from its old count to the new |
| UseTasks.ToggleMovesCount | frontend/src/hooks/useTasks.js:53-56 | with unique ids, a confirmed toggle moves exactly one task between `pending` and `completed` and keeps `total` |
| UseTasks.TaskList.constructor | frontend/src/hooks/useTasks.js:6-8 | an empty list, loading, and no error |
| UseTasks.TaskList.Stats | frontend/src/hooks/useTasks.js:78-82 | the stats of the current list; the two counts add up to the length |
| UseTasks.TaskList.FetchTasks | frontend/src/hooks/useTasks.js:10-23 | success replaces the whole list and leaves no error; failure keeps the list and records the message; loading is false afterwards |
| UseTasks.TaskList.CreateTask | frontend/src/hooks/useTasks.js:29-39 | success puts the new task in front of the unchanged list; failure leaves the list and reports the message; success is reported exactly for a successful call |
| UseTasks.TaskList.UpdateTask | frontend/src/hooks/useTasks.js:41-51 | success replaces by id; failure leaves the list and reports the message |
| UseTasks.TaskList.ToggleTask | frontend/src/hooks/useTasks.js:53-65 | success replaces by id with the toggled record; failure leaves the list |
| UseTasks.TaskList.DeleteTask | frontend/src/hooks/useTasks.js:67-75 | success removes by id; failure leaves the list |
| VisibleTasks.Visible | frontend/src/App.jsx:26-35 | the view keeps the list's order and shows exactly the tasks passing the status tab and the search, each as many times as in the list |
| VisibleTasks.AllWithBlankSearch | frontend/src/App.jsx:28-31 | the "all" tab with a blank search shows the whole list |
| VisibleTasks.SearchOccurs | frontend/src/App.jsx:31-33 | a non-blank search matches a task exactly when the lowered search occurs in its lowered title or description |
| VisibleTasks.SearchIgnoresCase | frontend/src/App.jsx:32-33 | typing the search in lower case shows the same tasks |
| VisibleTasks.TabMatchesStats | frontend/src/App.jsx:28 | with a blank search, a status tab shows exactly as many tasks as `stats` counts for that status |
| TaskForm.Validate | frontend/src/components/TaskForm.jsx:25-38 | a title message exactly when the trimmed title is outside 3..100, and it is the schema's message and the route's first message for that title; a description message exactly when the untrimmed description is over 500 |
| TaskForm.InitialFormFor | frontend/src/components/TaskForm.jsx:12-23 | no initial data gives `initialForm`; otherwise its title and description or "", and its status unless absent or empty (then "pending"); the status is never empty |
| TaskForm.EditFormOfStoredTask | frontend/src/components/TaskForm.jsx:12-18 | editing a stored valid task shows its own fields, and the form's check accepts them |
| TaskForm.AcceptedFormPassesRoute | frontend/src/components/TaskForm.jsx:48-54 | a form the check accepts, with a valid status, passes the create route's chains |
| TaskForm.RouteDescriptionRejectImpliesForm | frontend/src/components/TaskForm.jsx:34-36 | a description the route rejects, the form rejects too |
| TaskForm.FormStricterThanRoute | frontend/src/components/TaskForm.jsx:34-36 | 500 letters and a trailing space: the form rejects them and the route accepts them |
| TaskForm.TaskFormState.constructor | frontend/src/components/TaskForm.jsx:6-23 | after the init effect the form comes from the initial data and there are no errors |
| TaskForm.TaskFormState.HandleChange | frontend/src/components/TaskForm.jsx:40-44 | the edited field takes the value; only its own error is blanked, and only when it shows one |
| TaskForm.TaskFormState.SelectStatus | frontend/src/components/TaskForm.jsx:130 | a status button sets only the status |
| TaskForm.TaskFormState.HandleSubmit | frontend/src/components/TaskForm.jsx:46-59 | with any message nothing is submitted and the messages are shown; otherwise the form is submitted, and only a successful create resets it to `initialForm` |

## Left out

- Lengths count Unicode characters. JavaScript counts UTF-16 code units, and validator.js counts surrogate pairs as one; the two differ for characters outside the Basic Multilingual Plane.
- Ids: `isMongoId` is modelled as exactly 24 hexadecimal characters. Mongoose's cast also accepts 12-byte strings; such ids are stopped by the route anyway.
- TaskRoutes.IdErrors: validator.js `isHexadecimal` also admits a leading `0x` or `0h`, so a 24-character id of that prefix and 22 hex digits passes the route, then fails Mongoose's cast and is answered 400 "Invalid task ID format"; the model answers such an id 400 "Invalid task ID".
- TaskRoutes.CreateTitleErrors: validator.js `isLength` also leaves out U+FE0E and U+FE0F (variation selectors) when counting, while the schema counts them. For strings holding them the chains and the schema can disagree, so TaskApi.ServeCreate's "always 201" and TaskApi.Dispatch's "the store never fails after the chains" hold under the model's single length measure only.
- Request bodies hold strings only. Non-string JSON values (numbers, arrays, null) and express-validator's conversion of them are not modelled.
- backend/server.js is not part of this model: bootstrap, CORS, the database connection, the root route and the catch-all 404 for unknown paths.
- frontend/src/api/task.js and frontend/src/api/axios.js are not part of this model. Each API call is a parameter: its result or the error's message.
- The percentage in frontend/src/components/StatsBar.jsx is floating point and is not modelled; only the counts are.
- Rendering, toasts, console logging, the delete confirmation timer and date formatting are not modelled.
- The `submitting` flag of the form only disables the button while a call is in flight, and is not modelled.
- Concurrency: simultaneous requests, last-write-wins, and interleaved client calls. Every operation runs alone.
- `toLowerCase` is modelled on ASCII letters only; other letters are not case-folded.
- Status is an enum in the model, so every stored task and every task the client receives has a valid status.
- MongoDB: ObjectId generation and the clock are parameters; the fresh id is an ObjectId in printed form (lower-case hex) that has not been issued before. Database failures other than cast, validation and not-found are only the generic error case of the error handler.
- TaskService.TaskStore.GetAllTasks: the order among tasks with the same `createdAt` is left open, as MongoDB leaves it.

=== FILE: common.dfy ===
/** Small value types shared by the backend and the client model. */
module Common {

  /** A field that may be absent (JavaScript `undefined`). */
  datatype Option<T> = None | Some(value: T) {
    function GetOr(default: T): T {
      match this
      case Some(v) => v
      case None => default
    }
  }

  /** The outcome of an operation that may fail with an error of type E. */
  datatype Result<T, E> = Ok(value: T) | Err(error: E)

  /** The present value of an optional, as a sequence of zero or one elements. */
  function ToSeq<T>(o: Option<T>): (r: seq<T>)
    ensures |r| <= 1
    ensures r == [] <==> o.None?
    ensures o.Some? ==> r[0] == o.value
  {
    if o.Some? then [o.value] else []
  }

  /** `a` can be obtained from `b` by deleting elements: an order-preserving sub-list. */
  predicate IsSubsequence<T(==)>(a: seq<T>, b: seq<T>)
    decreases |b|
  {
    if a == [] then true
    else if b == [] then false
    else (a[0] == b[0] && IsSubsequence(a[1..], b[1..])) || IsSubsequence(a, b[1..])
  }

  /** Sub-lists of sub-lists are sub-lists. */
  lemma {:induction false} SubsequenceTransitive<T>(a: seq<T>, b: seq<T>, c: seq<T>)
    requires IsSubsequence(a, b) && IsSubsequence(b, c)
    ensures IsSubsequence(a, c)
    decreases |c|
  {
    if a == [] {
    } else if IsSubsequence(b, c[1..]) {
      SubsequenceTransitive(a, b, c[1..]);
    } else {
      // b[0] == c[0] and b[1..] is a sub-list of c[1..]
      if a[0] == b[0] && IsSubsequence(a[1..], b[1..]) {
        SubsequenceTransitive(a[1..], b[1..], c[1..]);
      } else {
        SubsequenceTransitive(a, b[1..], c[1..]);
      }
    }
  }

  /** `Array.prototype.filter`: the elements satisfying `p`, in their original order. */
  function Filter<T(==,!new)>(s: seq<T>, p: T -> bool): (r: seq<T>)
    ensures |r| <= |s|
    ensures forall x :: x in r <==> x in s && p(x)
    ensures forall x :: multiset(r)[x] == if p(x) then multiset(s)[x] else 0
    ensures IsSubsequence(r, s)
    decreases |s|
  {
    if s == [] then []
    else
      var rest := Filter(s[1..], p);
      assert s == [s[0]] + s[1..];
      if p(s[0]) then [s[0]] + rest else rest
  }

  /** Filtering with a test that every element passes keeps the whole list. */
  lemma {:induction false} FilterKeepsAll<T(!new)>(s: seq<T>, p: T -> bool)
    requires forall x :: x in s ==> p(x)
    ensures Filter(s, p) == s
    decreases |s|
  {
    if s != [] {
      FilterKeepsAll(s[1..], p);
    }
  }

  /** Two tests that agree on the elements of a list filter it alike. */
  lemma {:induction false} FilterSameTest<T(!new)>(s: seq<T>, p: T -> bool, q: T -> bool)
    requires forall x :: x in s ==> p(x) == q(x)
    ensures Filter(s, p) == Filter(s, q)
    decreases |s|
  {
    if s != [] {
      FilterSameTest(s[1..], p, q);
    }
  }
}

=== FILE: error_handler.dfy ===
/** backend/middleware/errorHandler.js: the one place that turns a forwarded error into a status
    code and an error body. */
module ErrorHandler {
  import opened Common
  import opened Messages
  import opened Errors
  import opened Http

  const INVALID_ID_FORMAT: string := "Invalid task ID format"
  const INTERNAL_ERROR: string := "Internal Server Error"

  /** `errorHandler`: a validation error is a 400 with every path's message joined by ", ";
      a cast error is a 400 with a fixed text; any other error takes its own status code unless
      that is missing or 0 (then 500) and its own message unless that is empty (then a generic
      text). The body always has `success: false` and a non-empty message when there is one to give. */
  function HandleError(err: Error): (r: Response)
    ensures !r.Success()
    ensures err.ValidationError? ==> r.status == 400 && r.error == Joined(err.messages)
    ensures err.CastError? ==> r.status == 400 && r.error == INVALID_ID_FORMAT
    ensures err.AppError? ==>
      r.status == (if err.statusCode.Some? && err.statusCode.value != 0 then err.statusCode.value else 500)
    ensures err.AppError? && err.message != "" ==> r.error == err.message
    ensures err.AppError? && err.message == "" ==> r.error == INTERNAL_ERROR
    ensures err.ValidationError? && err.messages == [] ==> r.error == ""
    ensures !(err.ValidationError? && err.messages == []) ==> r.error != ""
  {
    match err
    case ValidationError(messages) => ErrorResponse(400, Joined(messages))
    case CastError => ErrorResponse(400, INVALID_ID_FORMAT)
    case AppError(message, statusCode) =>
      ErrorResponse(if statusCode.Some? && statusCode.value != 0 then statusCode.value else 500,
                    if message != "" then message else INTERNAL_ERROR)
  }

  /** The service's not-found error becomes a 404 carrying its own message. */
  lemma NotFoundResponse()
    ensures HandleError(NotFound) == ErrorResponse(404, "Task not found")
  {
  }
}

=== FILE: errors.dfy ===
/** The failures the service layer raises, as a tagged value instead of a thrown exception. */
module Errors {
  import opened Common
  import opened Messages

  datatype Error =
    /** Mongoose rejected the document: one message per failing path, in schema order. */
    | ValidationError(messages: seq<Message>)
    /** Mongoose could not cast the id to an ObjectId. */
    | CastError
    /** Any other error: its message and the `statusCode` property, if one was set. */
    | AppError(message: string, statusCode: Option<int>)

  /** What the service throws for an id with no stored task. */
  const NotFound: Error := AppError("Task not found", Some(404))
}

=== FILE: http.dfy ===
/** The shapes of the JSON requests and responses of the task API. */
module Http {
  import opened Common
  import opened TaskModel

  /** A JSON request body: the three keys the validators and the controller read, and the rest. */
  datatype RequestBody = RequestBody(title: Option<string>, description: Option<string>,
                                     status: Option<string>, extra: map<string, string>)

  /** The `data` member of a successful response. */
  datatype Payload =
    | OneTask(task: Task)
    | TaskList(count: int, tasks: seq<Task>)
    | NoData

  /** A response: `{success: true, ...data}` or `{success: false, error}`, with its status code. */
  datatype Response =
    | SuccessResponse(status: int, data: Payload)
    | ErrorResponse(status: int, error: string)
  {
    /** The `success` member of the JSON body. */
    predicate Success() {
      SuccessResponse?
    }
  }
}

=== FILE: messages.dfy ===
/** The validation messages of the backend and the client form, as values. Each one is rendered
    to the exact text the server sends only where a response or a form shows it. */
module Messages {
  import opened Text

  datatype Message =
    // declared on the schema in backend/models/Task.js, repeated by the route validators and the form
    | TitleRequired
    | TitleTooShort
    | TitleTooLong
    | DescriptionTooLong
    // Mongoose's own message for a value outside an enum
    | NotInEnum(value: string)
    // only the route validators of backend/routes/tasks.js write these
    | TitleEmpty
    | StatusInvalid
    | InvalidTaskId

  /** The text of a message; never empty. */
  function Render(m: Message): (s: string)
    ensures |s| > 0
  {
    match m
    case TitleRequired => "Title is required"
    case TitleTooShort => "Title must be at least 3 characters"
    case TitleTooLong => "Title cannot exceed 100 characters"
    case DescriptionTooLong => "Description cannot exceed 500 characters"
    case NotInEnum(v) => "`" + v + "` is not a valid enum value for path `status`."
    case TitleEmpty => "Title cannot be empty"
    case StatusInvalid => "Status must be pending or completed"
    case InvalidTaskId => "Invalid task ID"
  }

  /** The texts of a list of messages, in order. */
  function RenderAll(ms: seq<Message>): (r: seq<string>)
    ensures |r| == |ms|
    ensures forall i :: 0 <= i < |ms| ==> r[i] == Render(ms[i])
  {
    seq(|ms|, i requires 0 <= i < |ms| => Render(ms[i]))
  }

  /** The messages joined with ", ", as both `validate` and the error handler send them. A
      non-empty list always gives a non-empty text that starts with the first message. */
  function Joined(ms: seq<Message>): (r: string)
    ensures ms != [] ==> |r| > 0 && Render(ms[0]) <= r
    ensures ms == [] ==> r == ""
  {
    Join(RenderAll(ms), ", ")
  }
}

=== FILE: task_api.dfy ===
/** The request pipeline of the task API mounted at /api/tasks: the route's validator chains and
    `validate`, then its controller handler over the store, and, for a forwarded error, the error
    handler. */
module TaskApi {
  import opened Common
  import opened Messages
  import opened TaskModel
  import opened Errors
  import opened Http
  import opened TaskRoutes
  import S = TaskService
  import C = TaskController
  import H = ErrorHandler

  /** The response of a handler's outcome: its own answer, or the error handler's. */
  function Finish(o: C.Outcome): (r: Response)
    ensures o.Respond? ==> r == o.response
    ensures o.Next? ==> r == H.HandleError(o.error) && !r.Success()
  {
    match o
    case Respond(response) => response
    case Next(e) => H.HandleError(e)
  }

  /** A list request: 200 with every stored task, newest first. */
  method ServeList(store: S.TaskStore) returns (resp: Response)
    requires store.Valid()
    ensures resp.SuccessResponse? && resp.status == 200 && resp.data.TaskList?
    ensures resp.data.count == |resp.data.tasks| == |store.tasks|
    ensures S.NewestFirst(resp.data.tasks)
    ensures forall t :: t in resp.data.tasks <==> t in store.tasks.Values
  {
    var tasks := store.GetAllTasks();
    resp := Finish(C.GetAllTasks(Ok(tasks)));
  }

  /** A create request whose body passed the chains: the store cannot reject it, so the answer
      is always 201 with the new task, stored under `newId`. */
  method ServeCreate(store: S.TaskStore, body: RequestBody, newId: Id, now: Timestamp) returns (resp: Response)
    requires store.Valid() && IsCanonicalId(newId) && newId !in store.issued
    requires CreateBodyErrors(FieldsOf(body)) == []
    modifies store
    ensures store.Valid()
    ensures resp.SuccessResponse? && resp.status == 201 && resp.data.OneTask?
    ensures resp.data.task == NewTask(FieldsOf(body), newId, now).value
    ensures store.tasks == old(store.tasks)[newId := resp.data.task]
  {
    SanitizedCreate(body, newId, now);
    var r := store.CreateTask(FieldsOf(Sanitized(body)), newId, now);
    resp := Finish(C.CreateTask(r));
  }

  /** A get request whose id passed the chain: 200 with the task stored under the ObjectId the id
      casts to, or the 404. */
  method ServeGet(store: S.TaskStore, id: Id) returns (resp: Response)
    requires store.Valid() && IsObjectId(id)
    ensures resp.Success() <==> CastId(id) in store.tasks
    ensures resp.Success() ==> resp.status == 200 && resp.data == OneTask(store.tasks[CastId(id)])
    ensures !resp.Success() ==> resp == H.HandleError(NotFound)
  {
    var r := store.GetTaskById(id);
    resp := Finish(C.GetTaskById(r));
  }

  /** An update request whose id and body passed the chains: the store cannot reject the fields,
      so it is 200 with the updated record when the task exists and the 404 otherwise. */
  method ServeUpdate(store: S.TaskStore, id: Id, body: RequestBody, now: Timestamp) returns (resp: Response)
    requires store.Valid() && IsObjectId(id) && UpdateErrors(FieldsOf(body)) == []
    modifies store
    ensures store.Valid() && store.issued == old(store.issued)
    ensures resp.Success() <==> CastId(id) in old(store.tasks)
    ensures resp.Success() ==> resp.status == 200
    ensures resp.Success() ==> resp.data == OneTask(ApplyUpdate(old(store.tasks)[CastId(id)], FieldsOf(body), now))
    ensures resp.Success() ==> store.tasks == old(store.tasks)[CastId(id) := resp.data.task]
    ensures !resp.Success() ==> resp == H.HandleError(NotFound) && store.tasks == old(store.tasks)
  {
    SanitizedUpdateErrors(body);
    if CastId(id) in store.tasks {
      SanitizedUpdate(body, store.tasks[CastId(id)], now);
    }
    var r := store.UpdateTask(id, FieldsOf(Sanitized(body)), now);
    resp := Finish(C.UpdateTask(r));
  }

  /** A toggle request whose id passed the chain: 200 with the toggled task, or the 404. */
  method ServeToggle(store: S.TaskStore, id: Id, now: Timestamp) returns (resp: Response)
    requires store.Valid() && IsObjectId(id)
    modifies store
    ensures store.Valid() && store.issued == old(store.issued)
    ensures resp.Success() <==> CastId(id) in old(store.tasks)
    ensures resp.Success() ==> resp.status == 200
    ensures resp.Success() ==> resp.data == OneTask(Toggled(old(store.tasks)[CastId(id)], now))
    ensures resp.Success() ==> store.tasks == old(store.tasks)[CastId(id) := resp.data.task]
    ensures !resp.Success() ==> resp == H.HandleError(NotFound) && store.tasks == old(store.tasks)
  {
    var r := store.ToggleTaskStatus(id, now);
    resp := Finish(C.ToggleTaskStatus(r));
  }

  /** A delete request whose id passed the chain: 200 with empty data and the task gone, or the
      404. */
  method ServeDelete(store: S.TaskStore, id: Id) returns (resp: Response)
    requires store.Valid() && IsObjectId(id)
    modifies store
    ensures store.Valid() && store.issued == old(store.issued)
    ensures resp.Success() <==> CastId(id) in old(store.tasks)
    ensures resp.Success() ==> resp.status == 200 && resp.data == NoData
    ensures resp.Success() ==> store.tasks == old(store.tasks) - {CastId(id)}
    ensures !resp.Success() ==> resp == H.HandleError(NotFound) && store.tasks == old(store.tasks)
  {
    var r := store.DeleteTask(id);
    resp := Finish(C.DeleteTask(r));
  }

  /** Serves one request against the store. `newId` is the id the store would give a created task
      and `now` the clock reading. A request the chains reject is answered 400 before the store is
      touched; any failed request leaves the store as it was. Since the chains admit exactly what
      the schema admits, the store itself never fails on a request that passed them except by not
      finding the task, so every response is a 200, 201, 400 or 404. A request that passed goes to
      its own route's handler: a list or a get changes nothing, and an update, a toggle or a delete
      changes only the task its id names. */
  method Dispatch(store: S.TaskStore, route: Route, newId: Id, now: Timestamp) returns (resp: Response)
    requires store.Valid() && IsCanonicalId(newId) && newId !in store.issued
    modifies store
    ensures store.Valid()
    ensures RouteErrors(route) != [] ==> resp == ErrorResponse(400, Joined(RouteErrors(route)))
    ensures !resp.Success() ==> store.tasks == old(store.tasks)
    ensures resp.status == 400 <==> RouteErrors(route) != []
    ensures resp.status == 404 ==> resp == H.HandleError(NotFound)
    ensures resp.status == 200 || resp.status == 201 || resp.status == 400 || resp.status == 404
    ensures resp.status == 201 <==> route.CreateTask? && RouteErrors(route) == []
    ensures resp.SuccessResponse? && resp.data.TaskList? ==>
              && resp.data.count == |resp.data.tasks| && S.NewestFirst(resp.data.tasks)
              && forall t :: t in resp.data.tasks <==> t in store.tasks.Values
    ensures route.ListTasks? ==> store.tasks == old(store.tasks) && resp.SuccessResponse? && resp.status == 200 && resp.data.TaskList?
    ensures route.CreateTask? && resp.Success() ==>
              (resp.data == OneTask(NewTask(FieldsOf(route.body), newId, now).value)
               && store.tasks == old(store.tasks)[newId := resp.data.task])
    ensures route.GetTask? ==> store.tasks == old(store.tasks)
    ensures route.GetTask? && resp.Success() ==>
              (IsObjectId(route.id) && CastId(route.id) in old(store.tasks)
               && resp.data == OneTask(old(store.tasks)[CastId(route.id)]))
    ensures route.UpdateTask? && resp.Success() ==>
              (IsObjectId(route.id) && CastId(route.id) in old(store.tasks)
               && resp.data == OneTask(ApplyUpdate(old(store.tasks)[CastId(route.id)], FieldsOf(route.body), now))
               && store.tasks == old(store.tasks)[CastId(route.id) := resp.data.task])
    ensures route.ToggleTask? && resp.Success() ==>
              (IsObjectId(route.id) && CastId(route.id) in old(store.tasks)
               && resp.data == OneTask(Toggled(old(store.tasks)[CastId(route.id)], now))
               && store.tasks == old(store.tasks)[CastId(route.id) := resp.data.task])
    ensures route.DeleteTask? && resp.Success() ==>
              (IsObjectId(route.id) && resp.data == NoData
               && store.tasks == old(store.tasks) - {CastId(route.id)})
    ensures (route.GetTask? || route.UpdateTask? || route.ToggleTask? || route.DeleteTask?) && RouteErrors(route) == [] ==>
              (IsObjectId(route.id) && (resp.Success() <==> CastId(route.id) in old(store.tasks)))
  {
    var rejected := Validate(RouteErrors(route));
    if rejected.Some? {
      return rejected.value;
    }
    H.NotFoundResponse();
    match route
    case ListTasks =>
      resp := ServeList(store);
    case CreateTask(body) =>
      resp := ServeCreate(store, body, newId, now);
    case GetTask(id) =>
      resp := ServeGet(store, id);
    case UpdateTask(id, body) =>
      resp := ServeUpdate(store, id, body, now);
    case ToggleTask(id) =>
      resp := ServeToggle(store, id, now);
    case DeleteTask(id) =>
      resp := ServeDelete(store, id);
  }
}

=== FILE: task_controller.dfy ===
/** backend/controller/taskController.js: each handler turns the service's outcome into a response
    with `success: true`, or hands the error on to the error handler (`next(error)`) untouched. */
module TaskController {
  import opened Common
  import opened TaskModel
  import opened Errors
  import opened Http

  /** What a handler does: answer the request, or forward an error to the next middleware. */
  datatype Outcome = Respond(response: Response) | Next(error: Error)

  /** A service outcome carrying one task answers with `status` and that task as `data`; a failure
      is forwarded as it is. */
  function ReplyWithTask(r: Result<Task, Error>, status: int): (o: Outcome)
    ensures o.Respond? <==> r.Ok?
    ensures r.Ok? ==> o.response.Success() && o.response.status == status && o.response.data == OneTask(r.value)
    ensures r.Err? ==> o.error == r.error
  {
    match r
    case Ok(task) => Respond(SuccessResponse(status, OneTask(task)))
    case Err(e) => Next(e)
  }

  /** `getAllTasks`: 200 with `count` equal to the number of tasks sent as `data`. */
  function GetAllTasks(r: Result<seq<Task>, Error>): (o: Outcome)
    ensures o.Respond? <==> r.Ok?
    ensures o.Respond? ==> o.response.Success() && o.response.status == 200
    ensures o.Respond? ==> o.response.data.TaskList? && o.response.data.tasks == r.value
    ensures o.Respond? ==> o.response.data.count == |o.response.data.tasks|
    ensures r.Err? ==> o.error == r.error
  {
    match r
    case Ok(tasks) => Respond(SuccessResponse(200, TaskList(|tasks|, tasks)))
    case Err(e) => Next(e)
  }

  /** `getTaskById`: 200 with the task. */
  function GetTaskById(r: Result<Task, Error>): (o: Outcome)
    ensures o.Respond? <==> r.Ok?
    ensures r.Ok? ==> o.response.Success() && o.response.status == 200 && o.response.data == OneTask(r.value)
    ensures r.Err? ==> o.error == r.error
  {
    ReplyWithTask(r, 200)
  }

  /** `createTask`: 201 with the stored task. */
  function CreateTask(r: Result<Task, Error>): (o: Outcome)
    ensures o.Respond? <==> r.Ok?
    ensures r.Ok? ==> o.response.Success() && o.response.status == 201 && o.response.data == OneTask(r.value)
    ensures r.Err? ==> o.error == r.error
  {
    ReplyWithTask(r, 201)
  }

  /** `updateTask`: 200 with the record as it is after the update. */
  function UpdateTask(r: Result<Task, Error>): (o: Outcome)
    ensures o.Respond? <==> r.Ok?
    ensures r.Ok? ==> o.response.Success() && o.response.status == 200 && o.response.data == OneTask(r.value)
    ensures r.Err? ==> o.error == r.error
  {
    ReplyWithTask(r, 200)
  }

  /** `toggleTaskStatus`: 200 with the toggled task. */
  function ToggleTaskStatus(r: Result<Task, Error>): (o: Outcome)
    ensures o.Respond? <==> r.Ok?
    ensures r.Ok? ==> o.response.Success() && o.response.status == 200 && o.response.data == OneTask(r.value)
    ensures r.Err? ==> o.error == r.error
  {
    ReplyWithTask(r, 200)
  }

  /** `deleteTask`: 200 with an empty object as `data`; the deleted task is not sent back. */
  function DeleteTask(r: Result<Task, Error>): (o: Outcome)
    ensures o.Respond? <==> r.Ok?
    ensures r.Ok? ==> o.response.Success() && o.response.status == 200 && o.response.data == NoData
    ensures r.Err? ==> o.error == r.error
  {
    match r
    case Ok(_) => Respond(SuccessResponse(200, NoData))
    case Err(e) => Next(e)
  }
}

=== FILE: task_form.dfy ===
/** frontend/src/components/TaskForm.jsx: the form's own check before it submits, and its `form`
    and `errors` state cells. The check is stricter than the server's in one place: it measures the
    description before trimming. */
module TaskForm {
  import opened Common
  import opened Text
  import opened Messages
  import opened TaskModel
  import R = TaskRoutes

  /** The form's fields, all strings. */
  datatype Form = Form(title: string, description: string, status: string)

  /** `initialForm`. */
  const InitialForm: Form := Form("", "", "pending")

  /** The two inputs that report through `handleChange` (the status is set by buttons). */
  datatype FormField = TitleField | DescriptionField

  /** `validate`: at most one title message, the first of required, at least 3 and at most 100
      that fails on the trimmed title, which is always the message the schema gives the same title;
      and a description message when the untrimmed description is over 500 characters. */
  function Validate(f: Form): (errs: map<FormField, Message>)
    ensures TitleField in errs <==> !TitleInRange(f.title)
    ensures TitleField in errs ==> errs[TitleField] == TitleError(Some(f.title)).value
    ensures TitleField in errs ==> errs[TitleField] == R.CreateTitleErrors(Some(f.title))[0]
    ensures DescriptionField in errs <==> |f.description| > DESCRIPTION_MAX
    ensures DescriptionField in errs ==> errs[DescriptionField] == DescriptionTooLong
  {
    var v := Trim(f.title);
    TrimBlank(f.title);
    var titleErrs: map<FormField, Message> :=
      if v == [] then map[TitleField := TitleRequired]
      else if |v| < TITLE_MIN then map[TitleField := TitleTooShort]
      else if |v| > TITLE_MAX then map[TitleField := TitleTooLong]
      else map[];
    if |f.description| > DESCRIPTION_MAX then titleErrs[DescriptionField := DescriptionTooLong] else titleErrs
  }

  /** The form the init effect sets: from `initialData` with `|| ""` and `|| "pending"` fallbacks
      (an absent or empty value falls back), or `initialForm` when there is none. */
  function InitialFormFor(initialData: Option<Fields>): (f: Form)
    ensures initialData.None? ==> f == InitialForm
    ensures f.status != ""
    ensures initialData.Some? && (initialData.value.status.None? || initialData.value.status.value == "") ==>
              f.status == "pending"
    ensures initialData.Some? && initialData.value.status.Some? && initialData.value.status.value != "" ==>
              f.status == initialData.value.status.value
    ensures initialData.Some? ==> f.title == initialData.value.title.GetOr("")
    ensures initialData.Some? ==> f.description == initialData.value.description.GetOr("")
  {
    match initialData
    case None => InitialForm
    case Some(data) =>
      Form(data.title.GetOr(""), data.description.GetOr(""),
           if data.status.Some? && data.status.value != "" then data.status.value else "pending")
  }

  /** The fields a stored task sends to the edit form. */
  function FieldsOfTask(t: Task): Fields {
    Fields(Some(t.title), Some(t.description), Some(t.status.Name()))
  }

  /** Opening a stored task for editing shows its own fields, and the form's check accepts them
      as they are. */
  lemma EditFormOfStoredTask(t: Task)
    requires Valid(t)
    ensures InitialFormFor(Some(FieldsOfTask(t))) == Form(t.title, t.description, t.status.Name())
    ensures Validate(InitialFormFor(Some(FieldsOfTask(t)))) == map[]
  {
    var f := InitialFormFor(Some(FieldsOfTask(t)));
    assert f.status == t.status.Name();
  }

  /** Whatever the form's check accepts, with a status the enum admits, passes the create route's
      chains. */
  lemma AcceptedFormPassesRoute(f: Form)
    requires Validate(f) == map[] && IsStatus(f.status)
    ensures R.CreateBodyErrors(Fields(Some(f.title), Some(f.description), Some(f.status))) == []
  {
    assert TitleField !in Validate(f);
    assert DescriptionField !in Validate(f);
  }

  /** A description the route rejects is always rejected by the form too. */
  lemma RouteDescriptionRejectImpliesForm(f: Form)
    requires R.DescriptionErrors(Some(f.description)) != []
    ensures DescriptionField in Validate(f)
  {
  }

  /** The converse fails: 500 letters and a trailing space are too long for the form but within
      the route's limit once trimmed. */
  lemma FormStricterThanRoute()
    ensures var d := seq(DESCRIPTION_MAX, _ => 'a') + [' '];
            && DescriptionField in Validate(Form("Buy milk", d, "pending"))
            && R.DescriptionErrors(Some(d)) == []
  {
    var a := seq(DESCRIPTION_MAX, _ => 'a');
    var d := a + [' '];
    assert d[|d| - 1] == ' ' && d[..|d| - 1] == a;
    assert !IsSpace(a[|a| - 1]);
    assert TrimEnd(d) == TrimEnd(a) == a;
    assert !IsSpace(d[0]);
    assert TrimStart(d) == d;
    assert Trim(d) == a;
  }

  /** The form's state cells. `initialData` is fixed for the component's life; `isEditing` is
      whether there is one. */
  class TaskFormState {
    const initialData: Option<Fields>
    var form: Form
    var errors: map<FormField, string>

    /** After the init effect: the form from `initialData` and no errors. */
    constructor(initialData: Option<Fields>)
      ensures this.initialData == initialData
      ensures form == InitialFormFor(initialData) && errors == map[]
    {
      this.initialData := initialData;
      form := InitialFormFor(initialData);
      errors := map[];
    }

    /** `handleChange`: the edited input takes the new value, and its own error, when it shows
        one, is blanked; the other field and its error are untouched. */
    method HandleChange(field: FormField, value: string)
      modifies this
      ensures field == TitleField ==> form == old(form).(title := value)
      ensures field == DescriptionField ==> form == old(form).(description := value)
      ensures field in old(errors) && old(errors)[field] != "" ==> errors == old(errors)[field := ""]
      ensures !(field in old(errors) && old(errors)[field] != "") ==> errors == old(errors)
      ensures forall g :: g != field ==> (g in errors <==> g in old(errors)) && (g in errors ==> errors[g] == old(errors)[g])
    {
      if field == TitleField {
        form := form.(title := value);
      } else {
        form := form.(description := value);
      }
      if field in errors && errors[field] != "" {
        errors := errors[field := ""];
      }
    }

    /** A status button of the edit form: sets the status, nothing else. */
    method SelectStatus(status: Status)
      modifies this
      ensures form == old(form).(status := status.Name()) && errors == old(errors)
    {
      form := form.(status := status.Name());
    }

    /** `handleSubmit`: with any message from `validate` the messages are shown and nothing is
        submitted; otherwise the form is handed to `onSubmit`, whose success is `accepted`, and a
        create form (no `initialData`) goes back to `initialForm` when it succeeded. An edit form,
        or a failed submit, keeps what was typed. */
    method HandleSubmit(accepted: bool) returns (submitted: Option<Form>)
      modifies this
      ensures Validate(old(form)) != map[] ==>
                && submitted.None? && form == old(form)
                && errors == map k | k in Validate(old(form)) :: Render(Validate(old(form))[k])
      ensures Validate(old(form)) == map[] ==> submitted == Some(old(form)) && errors == old(errors)
      ensures Validate(old(form)) == map[] && accepted && initialData.None? ==> form == InitialForm
      ensures !(Validate(old(form)) == map[] && accepted && initialData.None?) ==> form == old(form)
    {
      var errs := Validate(form);
      if errs != map[] {
        errors := map k | k in errs :: Render(errs[k]);
        return None;
      }
      submitted := Some(form);
      if accepted && initialData.None? {
        form := InitialForm;
      }
    }
  }
}

=== FILE: task_model.dfy ===
/** The Task record of backend/models/Task.js: its fields, the rules the schema enforces, the
    defaults it fills in, and the changes an update or a status toggle makes to a stored record. */
module TaskModel {
  import opened Common
  import opened Text
  import opened Messages

  const TITLE_MIN: nat := 3
  const TITLE_MAX: nat := 100
  const DESCRIPTION_MAX: nat := 500

  /** A document identifier; the store casts it to an ObjectId. */
  type Id = string
  /** Milliseconds of the injected clock. */
  type Timestamp = int

  predicate IsHexDigit(c: char) {
    '0' <= c <= '9' || 'a' <= c <= 'f' || 'A' <= c <= 'F'
  }

  /** The ObjectId format, modelled as exactly 24 hexadecimal characters, both for the route
      validator `isMongoId` and for the store's cast. */
  predicate IsObjectId(s: string) {
    |s| == 24 && forall i :: 0 <= i < |s| ==> IsHexDigit(s[i])
  }

  /** An ObjectId as MongoDB generates and prints it: 24 lower-case hexadecimal digits. The store
      keeps its tasks under ids of this form. */
  predicate IsCanonicalId(s: string) {
    IsObjectId(s) && Lower(s) == s
  }

  /** The ObjectId a well-formed id string casts to, in its printed form. The cast reads the hex
      digits in either case, so two spellings that differ only in case name the same document. */
  function CastId(id: Id): (k: Id)
    requires IsObjectId(id)
    ensures IsCanonicalId(k)
    ensures IsCanonicalId(id) ==> k == id
    ensures |k| == |id| && forall i :: 0 <= i < |id| ==> k[i] == LowerChar(id[i])
  {
    LowerIdempotent(id);
    Lower(id)
  }

  /** Two spellings of an id cast to the same ObjectId exactly when they agree once lowered; in
      particular every spelling of a stored id finds it. */
  lemma CastIgnoresCase(a: Id, b: Id)
    requires IsObjectId(a) && IsObjectId(b)
    ensures CastId(a) == CastId(b) <==> Lower(a) == Lower(b)
    ensures IsObjectId(Lower(a)) && CastId(Lower(a)) == CastId(a)
  {
    LowerIdempotent(a);
  }

  /** The two values of the `status` enum. */
  datatype Status = Pending | Completed {
    /** The text stored and sent for the status. */
    function Name(): string {
      match this
      case Pending => "pending"
      case Completed => "completed"
    }
  }

  /** Reads a status text: exactly "pending" or "completed", nothing else. */
  function ParseStatus(s: string): (r: Option<Status>)
    ensures r.Some? ==> r.value.Name() == s
    ensures r.None? ==> s != Pending.Name() && s != Completed.Name()
  {
    if s == "pending" then Some(Pending)
    else if s == "completed" then Some(Completed)
    else None
  }

  /** A text the `status` enum admits. */
  predicate IsStatus(s: string) {
    ParseStatus(s).Some?
  }

  /** A stored task, with the two timestamps that `timestamps: true` adds. Its status is held as
      the enum value, since the schema admits no other. */
  datatype Task = Task(id: Id, title: string, description: string, status: Status,
                       createdAt: Timestamp, updatedAt: Timestamp)

  /** The candidate fields of a create or an update; each one absent or a string. */
  datatype Fields = Fields(title: Option<string>, description: Option<string>, status: Option<string>)

  /** A title the schema accepts once trimmed. */
  predicate TitleInRange(title: string) {
    TITLE_MIN <= |Trim(title)| <= TITLE_MAX
  }

  /** A description the schema accepts once trimmed. */
  predicate DescriptionInRange(description: string) {
    |Trim(description)| <= DESCRIPTION_MAX
  }

  /** What the schema guarantees of every record it stores. */
  predicate Valid(t: Task) {
    && Trim(t.title) == t.title && TITLE_MIN <= |t.title| <= TITLE_MAX
    && Trim(t.description) == t.description && |t.description| <= DESCRIPTION_MAX
  }

  /** The title path's validators in declaration order (required, minlength, maxlength) after the
      trim setter; Mongoose reports only the first one that fails. */
  function TitleError(title: Option<string>): (e: Option<Message>)
    ensures e.None? <==> title.Some? && TitleInRange(title.value)
    ensures e == Some(TitleRequired) <==> title.None? || IsBlank(title.value)
    ensures e == Some(TitleTooShort) <==> title.Some? && 0 < |Trim(title.value)| < TITLE_MIN
    ensures e == Some(TitleTooLong) <==> title.Some? && |Trim(title.value)| > TITLE_MAX
  {
    var v := Trim(title.GetOr(""));
    TrimBlank(title.GetOr(""));
    if title.None? || v == [] then Some(TitleRequired)
    else if |v| < TITLE_MIN then Some(TitleTooShort)
    else if |v| > TITLE_MAX then Some(TitleTooLong)
    else None
  }

  /** The description path: an absent description takes the default "", which passes. */
  function DescriptionError(description: Option<string>): (e: Option<Message>)
    ensures e.None? <==> description.None? || DescriptionInRange(description.value)
    ensures e.Some? ==> e.value == DescriptionTooLong
  {
    if description.Some? && |Trim(description.value)| > DESCRIPTION_MAX then Some(DescriptionTooLong) else None
  }

  /** The status path: an absent status takes the default "pending", which passes; the schema
      declares no message of its own, so Mongoose's enum message is used. */
  function StatusError(status: Option<string>): (e: Option<Message>)
    ensures e.None? <==> status.None? || IsStatus(status.value)
    ensures e.Some? ==> e.value == NotInEnum(status.value)
  {
    if status.Some? && !IsStatus(status.value) then Some(NotInEnum(status.value)) else None
  }

  /** The messages of a failed document validation, one per failing path, in schema order. */
  function SchemaErrors(f: Fields): (errs: seq<Message>)
    ensures errs == ToSeq(TitleError(f.title)) + ToSeq(DescriptionError(f.description)) + ToSeq(StatusError(f.status))
    ensures |errs| <= 3
    ensures errs == [] <==>
      && f.title.Some? && TitleInRange(f.title.value)
      && (f.description.Some? ==> DescriptionInRange(f.description.value))
      && (f.status.Some? ==> IsStatus(f.status.value))
    ensures f.title.None? ==> errs[0] == TitleRequired
  {
    ToSeq(TitleError(f.title)) + ToSeq(DescriptionError(f.description)) + ToSeq(StatusError(f.status))
  }

  /** `Task.create`: validates the candidate fields and, when they pass, builds the record with
      the schema's defaults, the trimmed strings, the given id and both timestamps set to `now`. */
  function NewTask(f: Fields, id: Id, now: Timestamp): (r: Result<Task, seq<Message>>)
    ensures r.Ok? <==> SchemaErrors(f) == []
    ensures r.Err? ==> r.error == SchemaErrors(f) && r.error != []
    ensures r.Ok? ==> Valid(r.value)
    ensures r.Ok? ==> r.value.id == id && r.value.createdAt == now && r.value.updatedAt == now
    ensures r.Ok? ==> r.value.title == Trim(f.title.value)
    ensures r.Ok? ==> r.value.description == (if f.description.Some? then Trim(f.description.value) else "")
    ensures r.Ok? ==> r.value.status.Name() == f.status.GetOr("pending")
  {
    var errs := SchemaErrors(f);
    if errs != [] then Err(errs)
    else
      var title := Trim(f.title.value);
      var description := Trim(f.description.GetOr(""));
      TrimIdempotent(f.title.value);
      TrimIdempotent(f.description.GetOr(""));
      var status := if f.status.Some? then ParseStatus(f.status.value).value else Pending;
      Ok(Task(id, title, description, status, now, now))
  }

  /** The update validators (`runValidators: true`): only the supplied paths are checked, each
      with its own rules, so the messages are the schema's with the title's left out when no title
      is supplied. */
  function UpdateErrors(f: Fields): (errs: seq<Message>)
    ensures f.title.Some? ==> errs == SchemaErrors(f)
    ensures f.title.None? ==> errs == SchemaErrors(f)[1..]
    ensures |errs| <= 3
    ensures errs == [] <==>
      && (f.title.Some? ==> TitleInRange(f.title.value))
      && (f.description.Some? ==> DescriptionInRange(f.description.value))
      && (f.status.Some? ==> IsStatus(f.status.value))
  {
    (if f.title.Some? then ToSeq(TitleError(f.title)) else [])
    + ToSeq(DescriptionError(f.description)) + ToSeq(StatusError(f.status))
  }

  /** `findByIdAndUpdate` with the undefined keys stripped: the supplied fields replace the stored
      ones (trimmed), `updatedAt` is refreshed, and the id and `createdAt` never change. An update
      the validators accept keeps a valid record valid. */
  function ApplyUpdate(t: Task, f: Fields, now: Timestamp): (u: Task)
    ensures u.id == t.id && u.createdAt == t.createdAt && u.updatedAt == now
    ensures f.title.None? ==> u.title == t.title
    ensures f.title.Some? ==> u.title == Trim(f.title.value)
    ensures f.description.None? ==> u.description == t.description
    ensures f.description.Some? ==> u.description == Trim(f.description.value)
    ensures f.status.None? ==> u.status == t.status
    ensures f.status.Some? && IsStatus(f.status.value) ==> u.status.Name() == f.status.value
    ensures Valid(t) && UpdateErrors(f) == [] ==> Valid(u)
  {
    TrimIdempotent(f.title.GetOr(""));
    TrimIdempotent(f.description.GetOr(""));
    t.(title := if f.title.Some? then Trim(f.title.value) else t.title,
       description := if f.description.Some? then Trim(f.description.value) else t.description,
       status := if f.status.Some? && IsStatus(f.status.value) then ParseStatus(f.status.value).value else t.status,
       updatedAt := now)
  }

  /** The status flip of `toggleTaskStatus` followed by `save()`: a pending task becomes completed
      and any other becomes pending; only `status` and `updatedAt` change. */
  function Toggled(t: Task, now: Timestamp): (u: Task)
    ensures u.status != t.status
    ensures u.id == t.id && u.title == t.title && u.description == t.description
    ensures u.createdAt == t.createdAt && u.updatedAt == now
    ensures Valid(t) ==> Valid(u)
  {
    t.(status := if t.status == Pending then Completed else Pending, updatedAt := now)
  }

  /** Toggling twice gives back the original status. */
  lemma ToggleTwice(t: Task, now1: Timestamp, now2: Timestamp)
    ensures Toggled(Toggled(t, now1), now2) == t.(updatedAt := now2)
  {
  }
}

=== FILE: task_routes.dfy ===
/** backend/routes/tasks.js: the express-validator chains, the `validate` gate and which route
    runs which chains. No chain calls `.bail()`, so every failing check of a chain adds its own
    message, chains report in the order the route lists them, and `validate` answers 400 with all
    of them joined by ", ". */
module TaskRoutes {
  import opened Common
  import opened Text
  import opened Messages
  import opened TaskModel
  import opened Http

  /** `mongoIdParam`: the `:id` parameter must be an ObjectId. */
  function IdErrors(id: string): (errs: seq<Message>)
    ensures errs == [] <==> IsObjectId(id)
    ensures errs != [] ==> errs == [InvalidTaskId]
  {
    if IsObjectId(id) then [] else [InvalidTaskId]
  }

  /** The three checks on a trimmed title: not empty (with the chain's own message), at least 3,
      at most 100 characters. All failing checks report. */
  function TitleChecks(v: string, emptyMessage: Message): (errs: seq<Message>)
  {
    (if v == [] then [emptyMessage] else [])
    + (if |v| < TITLE_MIN then [TitleTooShort] else [])
    + (if |v| > TITLE_MAX then [TitleTooLong] else [])
  }

  /** The title chain of `taskBodyValidators`. A missing title is read as "" (the validator
      converts undefined to the empty string), so a missing or blank title reports both
      "Title is required" and "Title must be at least 3 characters"; otherwise at most one
      message, and it is the one the schema would give. */
  function CreateTitleErrors(title: Option<string>): (errs: seq<Message>)
    ensures errs == [] <==> title.Some? && TitleInRange(title.value)
    ensures (title.None? || IsBlank(title.value)) <==> errs == [TitleRequired, TitleTooShort]
    ensures errs != [] ==> errs[0] == TitleError(title).value
    ensures 1 <= |Trim(title.GetOr(""))| ==> |errs| <= 1
    ensures title.Some? && 0 < |Trim(title.value)| < TITLE_MIN ==> errs == [TitleTooShort]
    ensures title.Some? && |Trim(title.value)| > TITLE_MAX ==> errs == [TitleTooLong]
  {
    TrimBlank(title.GetOr(""));
    TitleChecks(Trim(title.GetOr("")), TitleRequired)
  }

  /** The title chain of `taskBodyUpdateValidators`: optional, so an absent title is not checked;
      a blank one reports "Title cannot be empty" and "Title must be at least 3 characters". */
  function UpdateTitleErrors(title: Option<string>): (errs: seq<Message>)
    ensures errs == [] <==> title.None? || TitleInRange(title.value)
    ensures (title.Some? && IsBlank(title.value)) <==> errs == [TitleEmpty, TitleTooShort]
    ensures title.Some? && 1 <= |Trim(title.value)| ==> errs == CreateTitleErrors(title)
  {
    if title.None? then []
    else
      TrimBlank(title.value);
      TitleChecks(Trim(title.value), TitleEmpty)
  }

  /** The description chain (the same on create and update): optional; when present, at most 500
      characters once trimmed. */
  function DescriptionErrors(description: Option<string>): (errs: seq<Message>)
    ensures errs == [] <==> description.None? || DescriptionInRange(description.value)
    ensures errs != [] ==> errs == [DescriptionTooLong]
  {
    if description.Some? && |Trim(description.value)| > DESCRIPTION_MAX then [DescriptionTooLong] else []
  }

  /** The status chain (the same on create and update): optional; when present, exactly
      "pending" or "completed". */
  function StatusErrors(status: Option<string>): (errs: seq<Message>)
    ensures errs == [] <==> status.None? || IsStatus(status.value)
    ensures errs != [] ==> errs == [StatusInvalid]
  {
    if status.Some? && !IsStatus(status.value) then [StatusInvalid] else []
  }

  /** `taskBodyValidators`: every chain runs, and the messages come in the order title,
      description, status. The route accepts exactly the bodies the schema accepts, so a create
      that passes it never meets a schema ValidationError. */
  function CreateBodyErrors(f: Fields): (errs: seq<Message>)
    ensures errs == CreateTitleErrors(f.title) + DescriptionErrors(f.description) + StatusErrors(f.status)
    ensures errs == [] <==> SchemaErrors(f) == []
    ensures |errs| <= 4
  {
    CreateTitleErrors(f.title) + DescriptionErrors(f.description) + StatusErrors(f.status)
  }

  /** `taskBodyUpdateValidators`: every chain runs, and the messages come in the order title,
      description, status. The route accepts exactly the updates the schema's update validators
      accept. */
  function UpdateBodyErrors(f: Fields): (errs: seq<Message>)
    ensures errs == UpdateTitleErrors(f.title) + DescriptionErrors(f.description) + StatusErrors(f.status)
    ensures errs == [] <==> UpdateErrors(f) == []
    ensures |errs| <= 4
  {
    UpdateTitleErrors(f.title) + DescriptionErrors(f.description) + StatusErrors(f.status)
  }

  /** The three fields the chains read and the controller destructures; other keys are ignored. */
  function FieldsOf(body: RequestBody): Fields {
    Fields(body.title, body.description, body.status)
  }

  /** Keys other than title, description and status never reach the validators or the service. */
  lemma ExtraKeysIgnored(body: RequestBody, extra: map<string, string>)
    ensures FieldsOf(body.(extra := extra)) == FieldsOf(body)
    ensures Sanitized(body.(extra := extra)) == Sanitized(body).(extra := extra)
  {
  }

  /** The `trim()` sanitizers write the trimmed title and description back into the body the
      controller reads. */
  function Sanitized(body: RequestBody): (b: RequestBody)
    ensures b.status == body.status && b.extra == body.extra
    ensures b.title.Some? <==> body.title.Some?
    ensures b.description.Some? <==> body.description.Some?
    ensures body.title.Some? ==> b.title == Some(Trim(body.title.value))
    ensures body.description.Some? ==> b.description == Some(Trim(body.description.value))
  {
    body.(title := if body.title.Some? then Some(Trim(body.title.value)) else None,
          description := if body.description.Some? then Some(Trim(body.description.value)) else None)
  }

  /** The route's trimming and the schema's trimming compose to one trim: a create from the
      sanitized body builds the same record as one from the raw body. */
  lemma SanitizedCreate(body: RequestBody, id: Id, now: Timestamp)
    ensures NewTask(FieldsOf(Sanitized(body)), id, now) == NewTask(FieldsOf(body), id, now)
  {
    TrimIdempotent(body.title.GetOr(""));
    TrimIdempotent(body.description.GetOr(""));
  }

  /** Likewise the update checks: the sanitized body passes exactly the same checks. */
  lemma SanitizedUpdateErrors(body: RequestBody)
    ensures UpdateErrors(FieldsOf(Sanitized(body))) == UpdateErrors(FieldsOf(body))
  {
    TrimIdempotent(body.title.GetOr(""));
    TrimIdempotent(body.description.GetOr(""));
  }

  /** And an update from the sanitized body gives the same record as one from the raw body. */
  lemma SanitizedUpdate(body: RequestBody, t: Task, now: Timestamp)
    ensures ApplyUpdate(t, FieldsOf(Sanitized(body)), now) == ApplyUpdate(t, FieldsOf(body), now)
  {
    TrimIdempotent(body.title.GetOr(""));
    TrimIdempotent(body.description.GetOr(""));
  }

  /** The six routes, with their `:id` parameter and body. */
  datatype Route =
    | ListTasks                                  // GET /
    | GetTask(id: string)                        // GET /:id
    | CreateTask(body: RequestBody)              // POST /
    | UpdateTask(id: string, body: RequestBody)  // PUT /:id
    | ToggleTask(id: string)                     // PATCH /:id/toggle
    | DeleteTask(id: string)                     // DELETE /:id

  /** The errors the chains of a route collect. Listing runs no chain; creating runs the body
      chains only; every route with an `:id` checks it first, and update checks the body after it. */
  function RouteErrors(route: Route): (errs: seq<Message>)
    ensures route.ListTasks? ==> errs == []
    ensures route.CreateTask? ==> errs == CreateBodyErrors(FieldsOf(route.body))
    ensures route.UpdateTask? ==> errs == IdErrors(route.id) + UpdateBodyErrors(FieldsOf(route.body))
    ensures (route.GetTask? || route.ToggleTask? || route.DeleteTask?) ==> errs == IdErrors(route.id)
    ensures !route.ListTasks? && !route.CreateTask? && !IsObjectId(route.id) ==> |errs| > 0 && errs[0] == InvalidTaskId
    ensures route.UpdateTask? ==> (errs == [] <==> IsObjectId(route.id) && UpdateErrors(FieldsOf(route.body)) == [])
    ensures (route.GetTask? || route.ToggleTask? || route.DeleteTask?) ==> (errs == [] <==> IsObjectId(route.id))
  {
    match route
    case ListTasks => []
    case GetTask(id) => IdErrors(id)
    case CreateTask(body) => CreateBodyErrors(FieldsOf(body))
    case UpdateTask(id, body) =>
      IdErrors(id) + UpdateBodyErrors(FieldsOf(body))
    case ToggleTask(id) => IdErrors(id)
    case DeleteTask(id) => IdErrors(id)
  }

  /** `validate`: with no errors control passes on (None); otherwise the answer is a 400 with
      `success: false` and every message joined by ", " in the order collected. */
  function Validate(errs: seq<Message>): (r: Option<Response>)
    ensures r.None? <==> errs == []
    ensures r.Some? ==> !r.value.Success() && r.value.status == 400 && r.value.error == Joined(errs)
    ensures r.Some? ==> r.value.error != ""
  {
    if errs == [] then None else Some(ErrorResponse(400, Joined(errs)))
  }
}

=== FILE: task_service.dfy ===
/** backend/services/taskService.js over an owned store: a map from id to task standing for the
    MongoDB collection. The id supply and the clock are parameters of the operations, and a
    missing task is an `Err(NotFound)` result instead of a thrown error. */
module TaskService {
  import opened Common
  import opened TaskModel
  import opened Errors

  /** Newest first: `createdAt` never increases along the list. */
  predicate NewestFirst(s: seq<Task>) {
    forall i, j :: 0 <= i < j < |s| ==> s[i].createdAt >= s[j].createdAt
  }

  /** Places `t` into a newest-first list, in front of the first task not newer than it. */
  function InsertNewestFirst(t: Task, s: seq<Task>): (r: seq<Task>)
    ensures |r| == |s| + 1
    ensures multiset(r) == multiset(s) + multiset{t}
    ensures forall x :: x in r <==> x == t || x in s
    decreases |s|
  {
    if s == [] || t.createdAt >= s[0].createdAt then [t] + s
    else
      assert s == [s[0]] + s[1..];
      [s[0]] + InsertNewestFirst(t, s[1..])
  }

  /** Inserting keeps a newest-first list newest first. */
  lemma {:induction false} InsertKeepsNewestFirst(t: Task, s: seq<Task>)
    requires NewestFirst(s)
    ensures NewestFirst(InsertNewestFirst(t, s))
    decreases |s|
  {
    if s == [] || t.createdAt >= s[0].createdAt {
    } else {
      InsertKeepsNewestFirst(t, s[1..]);
      var rest := InsertNewestFirst(t, s[1..]);
      assert forall x :: x in rest ==> x.createdAt <= s[0].createdAt;
      assert forall j :: 0 < j < |rest| + 1 ==> ([s[0]] + rest)[j] == rest[j - 1];
    }
  }

  class TaskStore {
    /** The collection, keyed by id. */
    var tasks: map<Id, Task>
    /** Every id the store has ever handed out, so none is reused after a delete. */
    ghost var issued: set<Id>

    /** Each task is stored under its own id, an ObjectId in printed form that was handed out,
        and satisfies the schema. */
    ghost predicate Valid()
      reads this
    {
      && tasks.Keys <= issued
      && forall id :: id in tasks ==> tasks[id].id == id && IsCanonicalId(id) && TaskModel.Valid(tasks[id])
    }

    /** An empty collection. */
    constructor()
      ensures Valid() && tasks == map[] && issued == {}
    {
      tasks := map[];
      issued := {};
    }

    /** `getAllTasks`: `Task.find().sort({createdAt: -1})`: every stored task exactly once,
        newest first (tasks created at the same instant come in no particular order). */
    method GetAllTasks() returns (r: seq<Task>)
      requires Valid()
      ensures NewestFirst(r)
      ensures |r| == |tasks|
      ensures forall t :: t in r <==> t in tasks.Values
    {
      r := [];
      var rest := tasks.Keys;
      while rest != {}
        invariant rest <= tasks.Keys
        invariant NewestFirst(r)
        invariant |r| + |rest| == |tasks|
        invariant forall t :: t in r <==> t in tasks.Values && t.id !in rest
        decreases |rest|
      {
        var id :| id in rest;
        var t := tasks[id];
        InsertKeepsNewestFirst(t, r);
        r := InsertNewestFirst(t, r);
        rest := rest - {id};
        forall x | x in tasks.Values
          ensures x.id in tasks && tasks[x.id] == x
        {
          var k :| k in tasks && tasks[k] == x;
        }
      }
    }

    /** `getTaskById`: the stored task under the ObjectId `id` casts to; an id that is not an
        ObjectId fails the cast, and an absent one is not found. Nothing changes. */
    method GetTaskById(id: Id) returns (r: Result<Task, Error>)
      requires Valid()
      ensures r.Ok? <==> IsObjectId(id) && CastId(id) in tasks
      ensures r.Ok? ==> IsObjectId(id) && r.value == tasks[CastId(id)] && r.value.id == CastId(id)
      ensures !IsObjectId(id) ==> r == Err(CastError)
      ensures IsObjectId(id) && CastId(id) !in tasks ==> r == Err(NotFound)
    {
      if !IsObjectId(id) {
        r := Err(CastError);
      } else if CastId(id) !in tasks {
        r := Err(NotFound);
      } else {
        r := Ok(tasks[CastId(id)]);
      }
    }

    /** `createTask`: `Task.create` from title, description and status. When the schema accepts
        them the new record, with defaults applied, is stored under the fresh id and returned;
        otherwise the schema's messages come back and nothing is stored. */
    method CreateTask(f: Fields, newId: Id, now: Timestamp) returns (r: Result<Task, Error>)
      requires Valid() && IsCanonicalId(newId) && newId !in issued
      modifies this
      ensures Valid()
      ensures r.Ok? <==> NewTask(f, newId, now).Ok?
      ensures r.Ok? ==> r.value == NewTask(f, newId, now).value
      ensures r.Ok? ==> tasks == old(tasks)[newId := r.value] && issued == old(issued) + {newId}
      ensures r.Err? ==> r.error == ValidationError(SchemaErrors(f))
      ensures r.Err? ==> tasks == old(tasks) && issued == old(issued)
    {
      var built := NewTask(f, newId, now);
      if built.Err? {
        r := Err(ValidationError(built.error));
      } else {
        tasks := tasks[newId := built.value];
        issued := issued + {newId};
        r := Ok(built.value);
      }
    }

    /** `updateTask`: `findByIdAndUpdate(id, fields, {new: true, runValidators: true})`. The id is
        cast first, then the supplied fields are validated, then the task is looked up; on success
        only the supplied fields and `updatedAt` change and the new record is returned. Every
        other task is untouched, and on failure nothing changes. */
    method UpdateTask(id: Id, f: Fields, now: Timestamp) returns (r: Result<Task, Error>)
      requires Valid()
      modifies this
      ensures Valid() && issued == old(issued)
      ensures !IsObjectId(id) ==> r == Err(CastError)
      ensures IsObjectId(id) && UpdateErrors(f) != [] ==> r == Err(ValidationError(UpdateErrors(f)))
      ensures IsObjectId(id) && UpdateErrors(f) == [] && CastId(id) !in old(tasks) ==> r == Err(NotFound)
      ensures r.Ok? <==> IsObjectId(id) && UpdateErrors(f) == [] && CastId(id) in old(tasks)
      ensures r.Ok? ==> IsObjectId(id) && r.value == ApplyUpdate(old(tasks)[CastId(id)], f, now)
      ensures r.Ok? ==> tasks == old(tasks)[CastId(id) := r.value]
      ensures r.Err? ==> tasks == old(tasks)
      ensures IsObjectId(id) ==>
                forall k :: k != CastId(id) ==> (k in tasks <==> k in old(tasks)) && (k in tasks ==> tasks[k] == old(tasks)[k])
    {
      if !IsObjectId(id) {
        r := Err(CastError);
      } else if UpdateErrors(f) != [] {
        r := Err(ValidationError(UpdateErrors(f)));
      } else if CastId(id) !in tasks {
        r := Err(NotFound);
      } else {
        var key := CastId(id);
        var updated := ApplyUpdate(tasks[key], f, now);
        tasks := tasks[key := updated];
        r := Ok(updated);
      }
    }

    /** `toggleTaskStatus`: a pending task becomes completed and any other becomes pending, then
        it is saved (refreshing `updatedAt`); no other field and no other task changes. */
    method ToggleTaskStatus(id: Id, now: Timestamp) returns (r: Result<Task, Error>)
      requires Valid()
      modifies this
      ensures Valid() && issued == old(issued)
      ensures !IsObjectId(id) ==> r == Err(CastError)
      ensures IsObjectId(id) && CastId(id) !in old(tasks) ==> r == Err(NotFound)
      ensures r.Ok? <==> IsObjectId(id) && CastId(id) in old(tasks)
      ensures r.Ok? ==> IsObjectId(id) && r.value == Toggled(old(tasks)[CastId(id)], now)
      ensures r.Ok? ==> IsObjectId(id) && r.value.status != old(tasks)[CastId(id)].status
      ensures r.Ok? ==> tasks == old(tasks)[CastId(id) := r.value]
      ensures r.Err? ==> tasks == old(tasks)
      ensures IsObjectId(id) ==>
                forall k :: k != CastId(id) ==> (k in tasks <==> k in old(tasks)) && (k in tasks ==> tasks[k] == old(tasks)[k])
    {
      if !IsObjectId(id) {
        r := Err(CastError);
      } else if CastId(id) !in tasks {
        r := Err(NotFound);
      } else {
        var key := CastId(id);
        var toggled := Toggled(tasks[key], now);
        tasks := tasks[key := toggled];
        r := Ok(toggled);
      }
    }

    /** `deleteTask`: `findByIdAndDelete`; the removed task is returned and a later lookup of the
        id, in any spelling, is not found. No other task changes, and the id is never handed out
        again. */
    method DeleteTask(id: Id) returns (r: Result<Task, Error>)
      requires Valid()
      modifies this
      ensures Valid() && issued == old(issued)
      ensures !IsObjectId(id) ==> r == Err(CastError)
      ensures IsObjectId(id) && CastId(id) !in old(tasks) ==> r == Err(NotFound)
      ensures r.Ok? <==> IsObjectId(id) && CastId(id) in old(tasks)
      ensures r.Ok? ==> IsObjectId(id) && r.value == old(tasks)[CastId(id)]
      ensures r.Ok? ==> tasks == old(tasks) - {CastId(id)} && CastId(id) !in tasks
      ensures r.Err? ==> tasks == old(tasks)
    {
      if !IsObjectId(id) {
        r := Err(CastError);
      } else if CastId(id) !in tasks {
        r := Err(NotFound);
      } else {
        var key := CastId(id);
        r := Ok(tasks[key]);
        tasks := tasks - {key};
      }
    }
  }
}

=== FILE: text.dfy ===
/** The JavaScript string operations the core relies on: `trim`, `toLowerCase`
    (restricted to ASCII), `includes` and `Array.prototype.join`. */
module Text {

  /** White space and line terminators of ECMAScript, the characters `String.prototype.trim`
      removes (express-validator's `trim()` sanitizer and Mongoose's `trim` setter remove the same set). */
  predicate IsSpace(c: char) {
    || c == ' ' || c == '\t' || c == '\n' || c == '\r' || c == '\U{000B}' || c == '\U{000C}'
    || c == '\U{00A0}' || c == '\U{1680}' || ('\U{2000}' <= c <= '\U{200A}')
    || c == '\U{2028}' || c == '\U{2029}' || c == '\U{202F}' || c == '\U{205F}'
    || c == '\U{3000}' || c == '\U{FEFF}'
  }

  /** Nothing but white space (JavaScript: `!s.trim()`). */
  predicate IsBlank(s: string) {
    forall i :: 0 <= i < |s| ==> IsSpace(s[i])
  }

  /** Drops the leading white space. */
  function TrimStart(s: string): (r: string)
    ensures |r| <= |s|
    decreases |s|
  {
    if s != [] && IsSpace(s[0]) then TrimStart(s[1..]) else s
  }

  /** What `TrimStart` leaves is a suffix of `s` that does not start with white space, and all it
      dropped was white space. */
  lemma {:induction false} TrimStartShape(s: string)
    ensures TrimStart(s) == s[|s| - |TrimStart(s)|..]
    ensures IsBlank(s[..|s| - |TrimStart(s)|])
    ensures TrimStart(s) == [] || !IsSpace(TrimStart(s)[0])
    decreases |s|
  {
    if s != [] && IsSpace(s[0]) {
      TrimStartShape(s[1..]);
      var r := TrimStart(s[1..]);
      assert s[..|s| - |r|] == [s[0]] + s[1..][..|s| - 1 - |r|];
    }
  }

  /** Drops the trailing white space. */
  function TrimEnd(s: string): (r: string)
    ensures |r| <= |s|
    decreases |s|
  {
    if s != [] && IsSpace(s[|s| - 1]) then TrimEnd(s[..|s| - 1]) else s
  }

  /** What `TrimEnd` leaves is a prefix of `s` that does not end with white space, and all it
      dropped was white space. */
  lemma {:induction false} TrimEndShape(s: string)
    ensures TrimEnd(s) == s[..|TrimEnd(s)|]
    ensures IsBlank(s[|TrimEnd(s)|..])
    ensures TrimEnd(s) == [] || !IsSpace(TrimEnd(s)[|TrimEnd(s)| - 1])
    decreases |s|
  {
    if s != [] && IsSpace(s[|s| - 1]) {
      TrimEndShape(s[..|s| - 1]);
      var r := TrimEnd(s[..|s| - 1]);
      assert s[|r|..] == s[..|s| - 1][|r|..] + [s[|s| - 1]];
    }
  }

  /** `String.prototype.trim`: `s` with white space removed from both ends. */
  function Trim(s: string): (r: string)
    ensures |r| <= |s|
  {
    TrimEnd(TrimStart(s))
  }

  /** The trimmed string is a contiguous piece of `s` that neither starts nor ends with white
      space, and only white space lies around it. */
  lemma TrimSlice(s: string) returns (i: nat)
    ensures i + |Trim(s)| <= |s|
    ensures Trim(s) == s[i..i + |Trim(s)|]
    ensures IsBlank(s[..i]) && IsBlank(s[i + |Trim(s)|..])
    ensures Trim(s) == [] || (!IsSpace(Trim(s)[0]) && !IsSpace(Trim(s)[|Trim(s)| - 1]))
  {
    TrimStartShape(s);
    var front := TrimStart(s);
    TrimEndShape(front);
    var r := TrimEnd(front);
    i := |s| - |front|;
    assert front[|r|..] == s[i + |r|..];
  }

  /** Trimming leaves nothing exactly when the string is blank. */
  lemma TrimBlank(s: string)
    ensures Trim(s) == [] <==> IsBlank(s)
  {
    var i := TrimSlice(s);
    var r := Trim(s);
    if r == [] {
      forall k | 0 <= k < |s|
        ensures IsSpace(s[k])
      {
        if k < i {
          assert s[..i][k] == s[k];
        } else {
          assert s[i..][k - i] == s[k];
        }
      }
    } else {
      assert r[0] == s[i] && !IsSpace(s[i]);
    }
  }

  /** Trimming twice is trimming once. */
  lemma TrimIdempotent(s: string)
    ensures Trim(Trim(s)) == Trim(s)
  {
    var _ := TrimSlice(s);
    var t := Trim(s);
    assert TrimStart(t) == t;
    assert TrimEnd(t) == t;
  }

  /** ASCII `toLowerCase` of one character: upper-case ASCII letters become lower case,
      everything else is kept. */
  function LowerChar(c: char): (d: char)
    ensures !('A' <= d <= 'Z')
    ensures ('a' <= d <= 'z') <==> ('a' <= c <= 'z' || 'A' <= c <= 'Z')
    ensures !('A' <= c <= 'Z') ==> d == c
    ensures IsSpace(d) <==> IsSpace(c)
  {
    if 'A' <= c <= 'Z' then (c as int + 32) as char else c
  }

  /** `toLowerCase` over ASCII: every character lowered, the length kept. */
  function Lower(s: string): (r: string)
    ensures |r| == |s|
    ensures forall i :: 0 <= i < |s| ==> r[i] == LowerChar(s[i])
  {
    seq(|s|, i requires 0 <= i < |s| => LowerChar(s[i]))
  }

  /** Lowering a lowered string changes nothing. */
  lemma LowerIdempotent(s: string)
    ensures Lower(Lower(s)) == Lower(s)
  {
    assert forall i :: 0 <= i < |s| ==> LowerChar(LowerChar(s[i])) == LowerChar(s[i]);
  }

  /** Lowering does not change whether a string is blank. */
  lemma LowerKeepsBlank(s: string)
    ensures IsBlank(Lower(s)) <==> IsBlank(s)
  {
  }

  /** `String.prototype.includes`: `sub` occurs in `s` (the empty string occurs everywhere). */
  predicate Includes(s: string, sub: string)
    decreases |s|
  {
    sub <= s || (s != [] && Includes(s[1..], sub))
  }

  /** `sub` occurs in `s` starting at position `i`. */
  predicate OccursAt(s: string, sub: string, i: int) {
    0 <= i <= |s| - |sub| && s[i..i + |sub|] == sub
  }

  /** `Includes` holds exactly when `sub` occurs at some position of `s`. */
  lemma {:induction false} IncludesAt(s: string, sub: string)
    ensures Includes(s, sub) <==> exists i :: OccursAt(s, sub, i)
    decreases |s|
  {
    if sub <= s {
      assert OccursAt(s, sub, 0);
    } else if s != [] {
      IncludesAt(s[1..], sub);
      if exists i :: OccursAt(s, sub, i) {
        var i :| OccursAt(s, sub, i);
        assert i != 0;
        assert s[1..][i - 1..i - 1 + |sub|] == s[i..i + |sub|];
        assert OccursAt(s[1..], sub, i - 1);
      }
      if Includes(s[1..], sub) {
        var i :| OccursAt(s[1..], sub, i);
        assert s[1..][i..i + |sub|] == s[i + 1..i + 1 + |sub|];
        assert OccursAt(s, sub, i + 1);
      }
    }
  }

  /** `Array.prototype.join`: the parts in order with `sep` between neighbours. The result is
      empty exactly when every part is empty and no separator is written or it is empty. */
  function Join(parts: seq<string>, sep: string): (r: string)
    ensures |parts| > 0 ==> parts[0] <= r
    ensures r == [] <==> (forall i :: 0 <= i < |parts| ==> parts[i] == []) && (|parts| <= 1 || sep == [])
  {
    if |parts| == 0 then ""
    else if |parts| == 1 then parts[0]
    else parts[0] + sep + Join(parts[1..], sep)
  }
}

=== FILE: use_tasks.dfy ===
/** frontend/src/hooks/useTasks.js: the client's copy of the task list and how each API call's
    outcome changes it. The calls themselves are parameters: an `Ok` carries what the server sent
    back, an `Err` the error's message. */
module UseTasks {
  import opened Common
  import opened TaskModel

  /** `prev.map(t => t._id === id ? updated : t)`: every entry with the id becomes `u`; the rest
      and the length stay. */
  function ReplaceById(s: seq<Task>, id: Id, u: Task): (r: seq<Task>)
    ensures |r| == |s|
    ensures forall i :: 0 <= i < |s| && s[i].id == id ==> r[i] == u
    ensures forall i :: 0 <= i < |s| && s[i].id != id ==> r[i] == s[i]
    decreases |s|
  {
    if s == [] then []
    else [if s[0].id == id then u else s[0]] + ReplaceById(s[1..], id, u)
  }

  /** `prev.filter(t => t._id !== id)`: every entry with the id goes; the others all stay, as
      many times as they occur, in their order. */
  function RemoveById(s: seq<Task>, id: Id): (r: seq<Task>)
    ensures IsSubsequence(r, s)
    ensures forall t :: t in r <==> t in s && t.id != id
    ensures forall t :: multiset(r)[t] == if t.id == id then 0 else multiset(s)[t]
  {
    Filter(s, (t: Task) => t.id != id)
  }

  /** Replacing by id with a task that has that id, then removing that id, is just removing it:
      an update followed by a delete leaves no trace of the update. */
  lemma {:induction false} ReplaceThenRemove(s: seq<Task>, id: Id, u: Task)
    requires u.id == id
    ensures RemoveById(ReplaceById(s, id, u), id) == RemoveById(s, id)
    decreases |s|
  {
    if s != [] {
      ReplaceThenRemove(s[1..], id, u);
      assert ReplaceById(s, id, u)[1..] == ReplaceById(s[1..], id, u);
    }
  }

  /** Replacing twice by the same id with the same task is replacing once. */
  lemma {:induction false} ReplaceIdempotent(s: seq<Task>, id: Id, u: Task)
    requires u.id == id
    ensures ReplaceById(ReplaceById(s, id, u), id, u) == ReplaceById(s, id, u)
  {
    var once := ReplaceById(s, id, u);
    var twice := ReplaceById(once, id, u);
    forall i | 0 <= i < |s|
      ensures twice[i] == once[i]
    {
    }
  }

  /** `tasks.filter(t => t.status === status).length`. */
  function CountStatus(s: seq<Task>, status: Status): (n: nat)
    ensures n <= |s|
  {
    |Filter(s, (t: Task) => t.status == status)|
  }

  /** The derived `stats` object. */
  datatype Stats = Stats(total: nat, completed: nat, pending: nat)

  /** `stats`: the list's length and how many entries are completed and pending. Every status is
      one of the two, so the two counts add up to the total. */
  function StatsOf(s: seq<Task>): (st: Stats)
    ensures st.total == |s|
    ensures st.completed + st.pending == st.total
    ensures st.completed == CountStatus(s, Completed) && st.pending == CountStatus(s, Pending)
  {
    StatsPartition(s);
    Stats(|s|, CountStatus(s, Completed), CountStatus(s, Pending))
  }

  /** Each entry is counted exactly once, as completed or as pending. */
  lemma {:induction false} StatsPartition(s: seq<Task>)
    ensures CountStatus(s, Completed) + CountStatus(s, Pending) == |s|
    decreases |s|
  {
    if s != [] {
      StatsPartition(s[1..]);
    }
  }

  /** Replacing the entry at `i` changes only its own status's count: it drops by one there, and
      the new status's count rises by one. */
  lemma {:induction false} ReplaceAtMovesCount(s: seq<Task>, i: nat, u: Task)
    requires i < |s| && u.status != s[i].status
    ensures CountStatus(s[i := u], s[i].status) + 1 == CountStatus(s, s[i].status)
    ensures CountStatus(s[i := u], u.status) == CountStatus(s, u.status) + 1
    decreases |s|
  {
    if i == 0 {
      assert s[i := u][1..] == s[1..];
    } else {
      ReplaceAtMovesCount(s[1..], i - 1, u);
      assert s[i := u][1..] == s[1..][i - 1 := u];
    }
  }

  /** When ids are unique, a toggle the server confirmed moves exactly one task from its old
      status's count to the other, and the total stays. */
  lemma ToggleMovesCount(s: seq<Task>, i: nat, now: Timestamp)
    requires i < |s|
    requires forall j :: 0 <= j < |s| && j != i ==> s[j].id != s[i].id
    ensures var r := ReplaceById(s, s[i].id, Toggled(s[i], now));
            && CountStatus(r, s[i].status) + 1 == CountStatus(s, s[i].status)
            && CountStatus(r, Toggled(s[i], now).status) == CountStatus(s, Toggled(s[i], now).status) + 1
            && StatsOf(r).total == StatsOf(s).total
  {
    var u := Toggled(s[i], now);
    var r := ReplaceById(s, s[i].id, u);
    assert r == s[i := u];
    ReplaceAtMovesCount(s, i, u);
  }

  /** The outcome `createTask` and `updateTask` report to their caller. */
  datatype MutationResult = MutationResult(success: bool, error: Option<string>)

  /** The hook's state cells. */
  class TaskList {
    var tasks: seq<Task>
    var loading: bool
    var error: Option<string>

    /** The state before the first fetch: an empty list, loading, no error. */
    constructor()
      ensures tasks == [] && loading && error.None?
    {
      tasks := [];
      loading := true;
      error := None;
    }

    /** `stats` over the current list. */
    function Stats(): (st: Stats)
      reads this
      ensures st == StatsOf(tasks)
      ensures st.completed + st.pending == st.total == |tasks|
    {
      StatsOf(tasks)
    }

    /** `fetchTasks`: loading is set and the error cleared; a successful fetch replaces the whole
        list, a failed one keeps the list and records the message; loading ends either way. */
    method FetchTasks(outcome: Result<seq<Task>, string>)
      modifies this
      ensures !loading
      ensures outcome.Ok? ==> tasks == outcome.value && error.None?
      ensures outcome.Err? ==> tasks == old(tasks) && error == Some(outcome.error)
    {
      loading := true;
      error := None;
      if outcome.Ok? {
        tasks := outcome.value;
      } else {
        error := Some(outcome.error);
      }
      loading := false;
    }

    /** `createTask`: the created task goes in front of the list; a failure leaves the list alone
        and is reported with its message. */
    method CreateTask(outcome: Result<Task, string>) returns (m: MutationResult)
      modifies this
      ensures loading == old(loading) && error == old(error)
      ensures m.success <==> outcome.Ok?
      ensures outcome.Ok? ==> tasks == [outcome.value] + old(tasks) && m.error.None?
      ensures outcome.Err? ==> tasks == old(tasks) && m.error == Some(outcome.error)
    {
      if outcome.Ok? {
        tasks := [outcome.value] + tasks;
        m := MutationResult(true, None);
      } else {
        m := MutationResult(false, Some(outcome.error));
      }
    }

    /** `updateTask`: the entries with the id are replaced by the server's record; a failure leaves
        the list alone and is reported with its message. */
    method UpdateTask(id: Id, outcome: Result<Task, string>) returns (m: MutationResult)
      modifies this
      ensures loading == old(loading) && error == old(error)
      ensures m.success <==> outcome.Ok?
      ensures outcome.Ok? ==> tasks == ReplaceById(old(tasks), id, outcome.value) && m.error.None?
      ensures outcome.Err? ==> tasks == old(tasks) && m.error == Some(outcome.error)
    {
      if outcome.Ok? {
        tasks := ReplaceById(tasks, id, outcome.value);
        m := MutationResult(true, None);
      } else {
        m := MutationResult(false, Some(outcome.error));
      }
    }

    /** `toggleTask`: the entries with the id are replaced by the toggled record; a failure leaves
        the list alone. */
    method ToggleTask(id: Id, outcome: Result<Task, string>)
      modifies this
      ensures loading == old(loading) && error == old(error)
      ensures outcome.Ok? ==> tasks == ReplaceById(old(tasks), id, outcome.value)
      ensures outcome.Err? ==> tasks == old(tasks)
    {
      if outcome.Ok? {
        tasks := ReplaceById(tasks, id, outcome.value);
      }
    }

    /** `deleteTask`: on success every entry with the id is removed; a failure leaves the list
        alone. */
    method DeleteTask(id: Id, outcome: Result<Id, string>)
      modifies this
      ensures loading == old(loading) && error == old(error)
      ensures outcome.Ok? ==> tasks == RemoveById(old(tasks), id)
      ensures outcome.Err? ==> tasks == old(tasks)
    {
      if outcome.Ok? {
        tasks := RemoveById(tasks, id);
      }
    }
  }
}

=== FILE: visible_tasks.dfy ===
/** The `visibleTasks` view of frontend/src/App.jsx: the task list narrowed by the status tab and
    then by the search box. */
module VisibleTasks {
  import opened Common
  import opened Text
  import opened TaskModel
  import opened UseTasks

  /** The status tab: "all", or one of the two statuses. */
  datatype StatusFilter = All | Only(status: Status)

  /** `filter === "all" || t.status === filter`. */
  predicate PassesFilter(filter: StatusFilter, t: Task) {
    filter.All? || t.status == filter.status
  }

  /** `!search.trim() || title or description, lowered, includes the lowered search`. The search
      is lowered but not trimmed, so spaces around a non-blank search count. */
  predicate PassesSearch(search: string, t: Task) {
    Trim(search) == [] || Includes(Lower(t.title), Lower(search)) || Includes(Lower(t.description), Lower(search))
  }

  /** The two chained filters. The view keeps the list's order and shows exactly the tasks that
      pass both the tab and the search, each as often as it occurs in the list. */
  function Visible(tasks: seq<Task>, filter: StatusFilter, search: string): (r: seq<Task>)
    ensures IsSubsequence(r, tasks)
    ensures forall t :: t in r <==> t in tasks && PassesFilter(filter, t) && PassesSearch(search, t)
    ensures forall t :: multiset(r)[t] ==
              if PassesFilter(filter, t) && PassesSearch(search, t) then multiset(tasks)[t] else 0
  {
    var byStatus := Filter(tasks, (t: Task) => PassesFilter(filter, t));
    var r := Filter(byStatus, (t: Task) => PassesSearch(search, t));
    SubsequenceTransitive(r, byStatus, tasks);
    r
  }

  /** On the "all" tab a blank search shows the whole list. */
  lemma AllWithBlankSearch(tasks: seq<Task>, search: string)
    requires IsBlank(search)
    ensures Visible(tasks, All, search) == tasks
  {
    TrimBlank(search);
    var byStatus := Filter(tasks, (t: Task) => PassesFilter(All, t));
    FilterKeepsAll(tasks, (t: Task) => PassesFilter(All, t));
    FilterKeepsAll(byStatus, (t: Task) => PassesSearch(search, t));
  }

  /** A non-blank search matches a task exactly when the lowered search occurs at some position
      of its lowered title or lowered description. */
  lemma SearchOccurs(search: string, t: Task)
    requires !IsBlank(search)
    ensures PassesSearch(search, t) <==>
      (exists i :: OccursAt(Lower(t.title), Lower(search), i)) || (exists i :: OccursAt(Lower(t.description), Lower(search), i))
  {
    TrimBlank(search);
    IncludesAt(Lower(t.title), Lower(search));
    IncludesAt(Lower(t.description), Lower(search));
  }

  /** The search ignores ASCII case: typing it in lower case shows the same tasks. */
  lemma SearchIgnoresCase(tasks: seq<Task>, filter: StatusFilter, search: string)
    ensures Visible(tasks, filter, Lower(search)) == Visible(tasks, filter, search)
  {
    LowerIdempotent(search);
    LowerKeepsBlank(search);
    TrimBlank(search);
    TrimBlank(Lower(search));
    var byStatus := Filter(tasks, (t: Task) => PassesFilter(filter, t));
    FilterSameTest(byStatus, (t: Task) => PassesSearch(Lower(search), t), (t: Task) => PassesSearch(search, t));
  }

  /** With a blank search, the tab of a status shows as many tasks as `stats` counts for it. */
  lemma TabMatchesStats(tasks: seq<Task>, status: Status, search: string)
    requires IsBlank(search)
    ensures |Visible(tasks, Only(status), search)| == CountStatus(tasks, status)
    ensures status == Completed ==> |Visible(tasks, Only(status), search)| == StatsOf(tasks).completed
    ensures status == Pending ==> |Visible(tasks, Only(status), search)| == StatsOf(tasks).pending
  {
    TrimBlank(search);
    var byStatus := Filter(tasks, (t: Task) => PassesFilter(Only(status), t));
    FilterKeepsAll(byStatus, (t: Task) => PassesSearch(search, t));
    FilterSameTest(tasks, (t: Task) => PassesFilter(Only(status), t), (t: Task) => t.status == status);
  }
}
